=== FILE: README.md ===
# CodeScanner scan-session controller, in Dafny

This project models the core of CodeScanner, a SwiftUI component that
scans QR codes and barcodes with the camera. It covers the part with real
state: the coordinator that receives each camera frame's decoded codes and
decides, by `ScanMode`, whether to hand a `.success` to the caller's
completion handler.

- `once` delivers one result and then latches `didFinishScanning`.
- `oncePerCode` drops codes already in `codesFound`.
- `continuous` waits `scanInterval` between deliveries.

It also models the value types and configuration defaults of
`CodeScanner.swift`, and the decisions of the macOS view controller: how
setup failures are classified, reset-before-start on appear,
stop-on-disappear, and the torch rule.

Files:

- `wrappers.dfy`: `Option` and `Result`.
- `scanner_types.dfy` (module `CodeScanner`): `ScanError`, `ScanResult`,
  `ScanMode`, `CodeScannerConfig.init` with its defaults, the two
  platforms' view initializers, and the protocol accessors.
- `session.dfy` (module `Session`): the coordinator state, `reset`,
  `didFail`, and the mode policy as one pure `Step`. It also defines
  `Run`, which applies callbacks one after another.
- `session_runs.dfy` (module `SessionRuns`): what the policy promises over
  whole sequences of callbacks.
- `coordinator_ios.dfy`, `coordinator_macos.dfy`: the two coordinator
  classes as written, each with its own guard order and its own switch on
  the mode. Each is proved equal to `Session.Step` applied to the reading
  that platform extracts.
- `lifecycle_macos.dfy` (module `LifecycleMacOS`): `ScannerViewControllerMacOS`.

Time is whole milliseconds since 1970 (`TicksPerSecond = 1000`), so
the default `scanInterval` of 2.0 seconds becomes 2000 ticks. The current time
reaches every callback as a `now` parameter. The platform's answers
(building a device input, adding inputs and outputs, `isRunning`,
`hasTorch`) are parameters too.

Some behaviours of the code that are easy to assume otherwise:

- `didFail` does not latch the session. A failure leaves
  `didFinishScanning` untouched, and later frames are still delivered
  (`DidFailDoesNotLatch`).
- The first frame after `reset` is delivered in `continuous` mode only
  when `now - epoch >= scanInterval`. With a real clock this always holds.
- The default scan mode on macOS is `oncePerCode` for
  `CodeScannerView(codeTypes:...)`. The unlabelled
  `CodeScannerView(_:...)` of the protocol extension defaults to `once` on
  both platforms (`MacOSDefaultModeDependsOnInitializer`).
- On macOS, non-QR features are filtered out before the first feature is
  taken. iOS takes the first metadata object as it is. Neither
  coordinator falls back to a later object once the first candidate has
  no string.

## Model

| member | source | states |
|---|---|---|
| CodeScanner.MakeConfig | Sources/CodeScanner/CodeScanner.swift:124-148 | each field holds the argument given for it, or that argument's default when it was left out |
| CodeScanner.InitStoresArgumentsUnchanged | Sources/CodeScanner/CodeScanner.swift:137-147 | initialising from the arguments that spell out a configuration gives back that configuration unchanged, whatever the system camera is |
| CodeScanner.ConfigDefaults | Sources/CodeScanner/CodeScanner.swift:126-135 | with every optional argument left out: mode `once`, interval 2 s, no performance preference, no viewfinder, empty simulated data, feedback on, torch off, gallery closed, the system camera |
| CodeScanner.ViewInit | Sources/CodeScanner/CodeScanner.swift:166-270 | a labelled view initializer defaults the scan mode to `once` on iOS (the initializer at lines 166-194) and `oncePerCode` on macOS (lines 242-270). Otherwise it builds the configuration with the configuration's own defaults |
| CodeScanner.UnlabeledViewInit | Sources/CodeScanner/CodeScanner.swift:82-108 | the unlabelled protocol initializer defaults the scan mode to `once` on both platforms, passes a given mode through, and gives every other field the configuration's default |
| CodeScanner.AccessorsReadThrough | Sources/CodeScanner/CodeScanner.swift:64-79 | every protocol accessor of a freshly built view returns the initializer's argument or its default, untransformed |
| CodeScanner.MacOSDefaultModeDependsOnInitializer | Sources/CodeScanner/CodeScanner.swift:82-108 | on macOS, with no arguments, the labelled initializer scans once per code but the unlabelled protocol initializer scans once |
| Session.Step | Sources/CodeScanner/ScannerCoordinator.swift:30-69 | a callback delivers only a success built from its own reading, stamped `now`. It delivers exactly when the reading exists, the latch is open and the mode allows it (`once` always; `oncePerCode` for a code not yet found; `continuous` when `scanInterval` has passed). Without a delivery nothing changes. Only `once` sets the latch and only `oncePerCode` grows `codesFound`. Feedback plays exactly on a delivery when enabled |
| Session.Reset | Sources/CodeScanner/ScannerCoordinator.swift:24-28 | whatever the state before, `reset` leaves no codes found, the latch open and the last delivery at the epoch |
| Session.IsPastScanInterval | Sources/CodeScanner/ScannerCoordinator.swift:57-59 | with a non-negative interval, the interval can only have passed if the clock is not behind the latest delivery. A non-positive interval has always passed unless the clock is behind. Right after a reset, the interval is measured from the epoch |
| Session.Found | Sources/CodeScanner/ScannerCoordinator.swift:61-69 | a found result goes to the completion handler as a success, only the delivery time changes (to now), and the platform's sound plays exactly when feedback is enabled |
| Session.DidFail | Sources/CodeScanner/ScannerCoordinator.swift:71-73 | a failure reaches the completion handler as exactly that `.failure`. No sound plays, and the state (found codes, latch, last delivery) is unchanged |
| Session.Run | Sources/CodeScanner/ScannerCoordinator.swift:30-55 | over consecutive callbacks, each delivers at most one result, built from its own frame, and `codesFound` never shrinks |
| SessionRuns.LatchedRunIsQuiet | Sources/CodeScanner/ScannerCoordinator.swift:34 | once `didFinishScanning` is set, no later callback delivers anything or changes the state |
| SessionRuns.OnceDeliversFirstReadingOnly | Sources/CodeScanner/ScannerCoordinator.swift:37-41 | in `once` mode a callback delivers if and only if it is the first with a readable frame, and the session ends latched if and only if some frame was readable |
| SessionRuns.OnceDeliversAtMostOne | Sources/CodeScanner/ScannerCoordinator.swift:136-140 | in `once` mode no two callbacks between resets both deliver |
| SessionRuns.OncePerCodeFindsEveryCodeRead | Sources/CodeScanner/ScannerCoordinator.swift:43-47 | in `oncePerCode` mode `codesFound` becomes the old set plus every code read, and the latch stays open |
| SessionRuns.OncePerCodeDeliversNewCodesOnly | Sources/CodeScanner/ScannerCoordinator.swift:142-146 | in `oncePerCode` mode a callback delivers if and only if its code was neither found before the run nor read earlier in it |
| SessionRuns.OncePerCodeDeliversEveryNewCode | Sources/CodeScanner/ScannerCoordinator.swift:44-46 | in `oncePerCode` mode the set of codes delivered is exactly the set of codes read minus those already found |
| SessionRuns.OncePerCodeNeverRepeats | Sources/CodeScanner/ScannerCoordinator.swift:143-145 | in `oncePerCode` mode two deliveries between resets never carry the same result |
| SessionRuns.LastTimeIsLatestDelivery | Sources/CodeScanner/ScannerCoordinator.swift:61-62 | in every mode `lastTime` is the time of the latest delivery, or its starting value if nothing was delivered |
| SessionRuns.ContinuousThrottlesSinceLastDelivery | Sources/CodeScanner/ScannerCoordinator.swift:49-59 | in `continuous` mode a callback delivers if and only if its frame is readable and `scanInterval` has passed since the latest delivery, not since the session start. `codesFound` and the latch are untouched |
| SessionRuns.ContinuousDeliveriesAreSpaced | Sources/CodeScanner/ScannerCoordinator.swift:148-157 | in `continuous` mode any two deliveries are at least `scanInterval` apart |
| SessionRuns.LastTimeNeverGoesBack | Sources/CodeScanner/ScannerCoordinator.swift:159-160 | with a clock that never runs backwards, `lastTime` after a callback is never later than after any later callback |
| SessionRuns.ResetRestoresInitial | Sources/CodeScanner/ScannerCoordinator.swift:16-28 | `reset` gives back exactly the state a coordinator starts with (no codes, latch open, epoch), and is idempotent |
| SessionRuns.ResetReopensSession | Sources/CodeScanner/ScannerCoordinator.swift:106-110 | after `reset` any reading is delivered in `once` and `oncePerCode` mode, even a code delivered before, and in `continuous` mode exactly when `scanInterval` has passed since the epoch |
| SessionRuns.DidFailDoesNotLatch | Sources/CodeScanner/ScannerCoordinator.swift:169-171 | after `didFail`, every later sequence of callbacks delivers exactly what it would have without the failure |
| SessionRuns.OnceScenario | Sources/CodeScanner/ScannerCoordinator.swift:38-41 | `once`: codes XYZ123 then OTHER deliver XYZ123 only |
| SessionRuns.OncePerCodeScenario | Sources/CodeScanner/ScannerCoordinator.swift:43-47 | `oncePerCode`: A, A, B, A delivers A then B |
| SessionRuns.ContinuousScenario | Sources/CodeScanner/ScannerCoordinator.swift:49-52 | `continuous`, interval 2 s, starting from a reset: callbacks at t, t+0.5, t+1.9, t+2.0 and t+2.1 s after a real clock reading t deliver at t and t+2.0 only |
| CoordinatorIos.MetadataOutput | Sources/CodeScanner/ScannerCoordinator.swift:30-55 | the iOS callback, written with its own guard order and switch, is observably the shared step applied to the first object's reading, with vibration as feedback |
| CoordinatorIos.FirstReading | Sources/CodeScanner/ScannerCoordinator.swift:31-35 | the iOS reading exists exactly when the first object is a machine-readable code with a string, and then it is that string and type |
| CoordinatorIos.NoFallbackToLaterObjects | Sources/CodeScanner/ScannerCoordinator.swift:31-33 | when the first object is unreadable, the callback does nothing, whatever the later objects hold |
| CoordinatorMacOS.QrCodeFeatures | Sources/CodeScanner/ScannerCoordinator.swift:127-128 | the filter keeps only QR features, all taken from the input. It is empty exactly when there is no QR feature, and otherwise starts with the first QR feature in the detector's order |
| CoordinatorMacOS.CaptureOutput | Sources/CodeScanner/ScannerCoordinator.swift:113-153 | the macOS callback, which checks the latch before decoding, is observably the shared step applied to its reading, with a screen flash as feedback |
| CoordinatorMacOS.FirstReading | Sources/CodeScanner/ScannerCoordinator.swift:121-134 | without an image buffer there is no reading. Otherwise a reading exists exactly when the frame's first QR feature has a message, and the reading is that message typed as QR |
| CoordinatorMacOS.FirstQrFeatureDecides | Sources/CodeScanner/ScannerCoordinator.swift:128-132 | for any non-QR features before the first QR feature and any features after it, that QR feature alone decides the reading. When it has no message there is no reading, and no later QR feature is read |
| LifecycleMacOS.ViewDidLoad | Sources/CodeScanner/ScannerViewControllerMacOS.swift:54-91 | the configured camera is preferred to the fallback. At most one failure is reported, classified in order: construction error, then `badInput`, then `badOutput`. No camera, or a camera that attaches fully, reports nothing |
| LifecycleMacOS.ReportFailures | Sources/CodeScanner/ScannerViewControllerMacOS.swift:68-90 | each reported failure reaches the completion handler as that `.failure`, and the coordinator's state is unchanged |
| LifecycleMacOS.LoadAndReport | Sources/CodeScanner/ScannerViewControllerMacOS.swift:57-90 | loading the view hands the caller at most one failure and nothing else, and leaves the session state unchanged. With a camera, that failure is `initError` carrying the construction error if construction threw, else `badInput` if the input was refused, else `badOutput` if the output was refused. Nothing is reported when there is no camera or when it attaches fully |
| LifecycleMacOS.ViewWillAppear | Sources/CodeScanner/ScannerViewControllerMacOS.swift:93-125 | every appearance first resets the coordinator to its initial state, then requests a start exactly when the session is not running, and makes no other request: one reset, at most one start, never a stop |
| LifecycleMacOS.ViewDidDisappear | Sources/CodeScanner/ScannerViewControllerMacOS.swift:98-106 | disappearing requests a stop exactly when the session is running, and nothing else |
| LifecycleMacOS.Drive | Sources/CodeScanner/ScannerViewControllerMacOS.swift:93-124 | over any sequence of appear, disappear and frame events, every start request comes right after a reset, and only frames deliver |
| LifecycleMacOS.AppearStartsFreshSession | Sources/CodeScanner/ScannerViewControllerMacOS.swift:118-118 | events after any appearance leave the coordinator as they would leave a new one, and deliver what they would deliver to a new one, whatever happened before |
| LifecycleMacOS.UpdateViewController | Sources/CodeScanner/ScannerViewControllerMacOS.swift:141-150 | a camera with a torch gets the torch on if and only if `isTorchOn`, never `auto`; a camera without one, or no camera, is left as it is |
| LifecycleMacOS.TorchUpdateIsIdempotent | Sources/CodeScanner/ScannerViewControllerMacOS.swift:141-150 | applying the torch rule twice with the same flag is the same as applying it once |

## Left out

- SwiftUI and AppKit plumbing is not modelled: `makeUIViewController`/`makeNSViewController`, previews, the preview layer, viewfinder layout and `loadView`. It holds no policy.
- QR detection (`CIDetector`, including the accuracy option from `preferPerformanceOverAccuracy`), `CMSampleBuffer` decoding and `AVMetadataMachineReadableCodeObject` are foreign frameworks. A frame arrives already decoded, as metadata objects (iOS) or detector features (macOS).
- `AudioServicesPlaySystemSound` is not called. Each step instead returns the sound it would play.
- `DispatchQueue` dispatch of `startRunning`/`stopRunning` is concurrency and is not modelled. The model keeps only the `isRunning` checks, as requests. Whether a requested start or stop has completed reaches the model only as the `isRunning` parameter.
- `Date()` and `Double` intervals become integer milliseconds. Each callback sees one `now`. In `continuous` mode `found` reads the clock a second time, just after `isPastScanInterval` did; the model stamps the delivery with the same `now` that was checked. In `once` and `oncePerCode` mode `found`'s read is the only one, and it is `now`.
- The completion closure is not stored in the configuration. What it receives is the `delivery` output of each step.
- The `isGalleryPresented` binding is modelled by its current value, and `simulatedData` is only stored. Neither takes part in the policy here.
- The macOS controller's `delegate` is assumed set, as `makeNSViewController` does. With no delegate, failures would go nowhere and the configured camera would be ignored.
- On the `badOutput` path, `assertionFailure` stops debug builds before the failure is reported. The model follows release builds, where `.badOutput` reaches the caller.
- In the torch rule, a failing `lockForConfiguration` (ignored by `try?`) is not modelled. The model assumes the torch mode is set.
- Codes are compared code point by code point. Swift's `Set<String>` compares strings by Unicode canonical equivalence, so a code written precomposed ("é" as U+00E9) and decomposed ("e" + U+0301) is one code to `codesFound` in the source but two in the model. The model is exact only for payloads in one normal form.
- The iOS view controller, `ScannerViewControllerIos`, is not part of this model. Its lifecycle and torch handling are not covered.
- SessionRuns.ContinuousDeliveriesAreSpaced: stated only for a non-negative `scanInterval`. With a negative interval the code delivers every readable frame, and non-adjacent deliveries need not be that far apart.
- SessionRuns.LastTimeNeverGoesBack: stated only for a clock that never runs backwards and starts no earlier than `lastTime`. With a wall clock that jumps back, `lastTime` can decrease.

=== FILE: coordinator_ios.dfy ===
/** `ScannerCoordinatorIos`: the metadata-output delegate of the iOS
    scanner. The detected objects of a frame arrive already decoded by
    the platform; the coordinator looks at the first one only. */
module CoordinatorIos {
  import opened Wrappers
  import opened CodeScanner
  import opened Session

  /** An `AVMetadataObject` as the delegate sees it: a machine-readable
      code whose string value may be missing, or some other kind of
      metadata (a detected face, say). */
  datatype MetadataObject =
    | MachineReadableCodeObject(objectType: CodeType, stringValue: Option<string>)
    | OtherMetadataObject(objectType: CodeType)

  /** `metadataOutput(_:didOutput:from:)`, with the guards in the order
      the class checks them and its own switch on the scan mode. */
  function MetadataOutput(s: SessionState, parent: CodeScannerView, now: int, metadataObjects: seq<MetadataObject>): (o: StepOutcome)
    ensures o == Step(s, parent, now, FirstReading(metadataObjects), Vibrate)
  {
    if |metadataObjects| == 0 then Quiet(s)
    else
      match metadataObjects[0]
      case OtherMetadataObject(_) => Quiet(s)
      case MachineReadableCodeObject(objectType, stringValue) =>
        match stringValue
        case None => Quiet(s)
        case Some(stringValue) =>
          if s.didFinishScanning then Quiet(s)
          else
            var result := ScanResult(stringValue, objectType);
            match parent.scanMode()
            case Once =>
              var o := Found(s, parent, now, result, Vibrate);
              o.(state := o.state.(didFinishScanning := true))
            case OncePerCode =>
              if stringValue !in s.codesFound then
                Found(s.(codesFound := s.codesFound + {stringValue}), parent, now, result, Vibrate)
              else Quiet(s)
            case Continuous =>
              if IsPastScanInterval(s, parent, now) then Found(s, parent, now, result, Vibrate)
              else Quiet(s)
  }

  /** The reading the iOS coordinator takes from a frame: the first
      object's string and type, when that object is a machine-readable
      code carrying a string. */
  function FirstReading(metadataObjects: seq<MetadataObject>): (r: Option<ScanResult>)
    ensures r.Some? <==>
              |metadataObjects| > 0 && metadataObjects[0].MachineReadableCodeObject? && metadataObjects[0].stringValue.Some?
    ensures r.Some? ==> r.value == ScanResult(metadataObjects[0].stringValue.value, metadataObjects[0].objectType)
  {
    if |metadataObjects| == 0 then None
    else
      match metadataObjects[0]
      case OtherMetadataObject(_) => None
      case MachineReadableCodeObject(t, sv) =>
        match sv
        case None => None
        case Some(v) => Some(ScanResult(v, t))
  }

  /** An unreadable first object ends the callback: the objects after it
      are never looked at, whatever they hold. */
  lemma NoFallbackToLaterObjects(s: SessionState, parent: CodeScannerView, now: int, first: MetadataObject, rest: seq<MetadataObject>)
    requires !first.MachineReadableCodeObject? || first.stringValue.None?
    ensures MetadataOutput(s, parent, now, [first] + rest) == Quiet(s)
  {
  }
}

=== FILE: coordinator_macos.dfy ===
/** `ScannerCoordinatorMacOS`: the sample-buffer delegate of the macOS
    scanner. Each frame is run through a QR detector; the coordinator
    looks at the first QR feature the detector reports. */
module CoordinatorMacOS {
  import opened Wrappers
  import opened CodeScanner
  import opened Session

  /** A `CIFeature` reported by the detector: a QR code feature whose
      message string may be missing, or a feature of another kind. */
  datatype Feature = QRCodeFeature(messageString: Option<string>) | OtherFeature

  /** A `CMSampleBuffer`, reduced to what the coordinator uses: `None`
      when it has no image buffer, otherwise the features the detector
      finds in its image. */
  type SampleBuffer = Option<seq<Feature>>

  /** `features.compactMap { $0 as? CIQRCodeFeature }`: the QR features,
      in the detector's order. */
  function QrCodeFeatures(features: seq<Feature>): (qr: seq<Feature>)
    ensures forall i :: 0 <= i < |qr| ==> qr[i].QRCodeFeature?
    ensures forall f :: f in qr ==> f in features
    ensures |qr| == 0 <==> forall j :: 0 <= j < |features| ==> !features[j].QRCodeFeature?
    // the first QR feature found is the first one in the detector's order
    ensures |qr| > 0 ==> exists j :: 0 <= j < |features| && features[j] == qr[0]
                                     && forall m :: 0 <= m < j ==> !features[m].QRCodeFeature?
    decreases |features|
  {
    if |features| == 0 then []
    else
      var rest := QrCodeFeatures(features[1..]);
      if features[0].QRCodeFeature? then [features[0]] + rest
      else
        assert forall j :: 1 <= j < |features| ==> features[j] == features[1..][j - 1];
        rest
  }

  /** `captureOutput(_:didOutput:from:)`, with the guards in the order
      the class checks them and its own switch on the scan mode. */
  function CaptureOutput(s: SessionState, parent: CodeScannerView, now: int, sampleBuffer: SampleBuffer): (o: StepOutcome)
    ensures o == Step(s, parent, now, FirstReading(sampleBuffer), FlashScreen)
  {
    if s.didFinishScanning then Quiet(s)
    else
      match sampleBuffer
      case None => Quiet(s)
      case Some(features) =>
        var qrCodeFeatures := QrCodeFeatures(features);
        if |qrCodeFeatures| == 0 || qrCodeFeatures[0].messageString.None? then Quiet(s)
        else
          var qrCodeString := qrCodeFeatures[0].messageString.value;
          var result := ScanResult(qrCodeString, Qr);
          match parent.scanMode()
          case Once =>
            var o := Found(s, parent, now, result, FlashScreen);
            o.(state := o.state.(didFinishScanning := true))
          case OncePerCode =>
            if qrCodeString !in s.codesFound then
              Found(s.(codesFound := s.codesFound + {qrCodeString}), parent, now, result, FlashScreen)
            else Quiet(s)
          case Continuous =>
            if IsPastScanInterval(s, parent, now) then Found(s, parent, now, result, FlashScreen)
            else Quiet(s)
  }

  /** Feature `j` is the first QR feature of `features`. */
  predicate IsFirstQr(features: seq<Feature>, j: int) {
    && 0 <= j < |features|
    && features[j].QRCodeFeature?
    && forall m :: 0 <= m < j ==> !features[m].QRCodeFeature?
  }

  /** The reading the macOS coordinator takes from a frame: the message
      of the first QR feature, typed as a QR code. */
  function FirstReading(sampleBuffer: SampleBuffer): (r: Option<ScanResult>)
    ensures sampleBuffer.None? ==> r.None?
    // a reading exists exactly when the first QR feature carries a message
    ensures sampleBuffer.Some? ==>
              (r.Some? <==> exists j :: IsFirstQr(sampleBuffer.value, j) && sampleBuffer.value[j].messageString.Some?)
    // and it is that message, typed as a QR code
    ensures r.Some? ==> forall j :: IsFirstQr(sampleBuffer.value, j) ==>
              r.value == ScanResult(sampleBuffer.value[j].messageString.value, Qr)
  {
    match sampleBuffer
    case None => None
    case Some(features) =>
      var qr := QrCodeFeatures(features);
      FirstQrIsUnique(features);
      if |qr| == 0 || qr[0].messageString.None? then None
      else Some(ScanResult(qr[0].messageString.value, Qr))
  }

  /** The head of the QR filter is the first QR feature, and there is
      only one first QR feature. */
  lemma FirstQrIsUnique(features: seq<Feature>)
    ensures forall j :: IsFirstQr(features, j) ==> |QrCodeFeatures(features)| > 0 && QrCodeFeatures(features)[0] == features[j]
  {
  }

  /** Features of other kinds in front of the first QR feature are
      skipped, and that QR feature alone decides the reading: when it has
      no message, no later QR feature is read. */
  lemma FirstQrFeatureDecides(pre: seq<Feature>, message: Option<string>, rest: seq<Feature>)
    requires forall i :: 0 <= i < |pre| ==> !pre[i].QRCodeFeature?
    ensures FirstReading(Some(pre + [QRCodeFeature(message)] + rest))
         == if message.Some? then Some(ScanResult(message.value, Qr)) else None
  {
    var features := pre + [QRCodeFeature(message)] + rest;
    assert IsFirstQr(features, |pre|);
  }
}

=== FILE: lifecycle_macos.dfy ===
/** The decisions of `ScannerViewControllerMacOS`, the view controller
    that owns the capture session on macOS: how camera setup failures
    are classified, when the coordinator is reset and the session
    started or stopped, and the torch rule. What the platform answers
    (can an input be built, can it be added, is the session running,
    does the camera have a torch) arrives as plain parameters. */
module LifecycleMacOS {
  import opened Wrappers
  import opened CodeScanner
  import opened Session
  import CoordinatorMacOS

  /** A request the controller makes: reset its coordinator, or ask the
      capture session to start or stop running. */
  datatype Request = ResetCoordinator | StartRunning | StopRunning

  /** `viewDidLoad()`. The camera is the configured one, else the
      system's default camera; `inputError` is what building a device
      input for it throws, if anything; `canAddInput` and `canAddOutput`
      are the session's answers. Returns the camera used, whether input
      and output were attached, and the failures reported to the
      coordinator. */
  method ViewDidLoad(configured: Option<Device>, fallback: Option<Device>,
                     inputError: Option<UnderlyingError>, canAddInput: bool, canAddOutput: bool)
    returns (device: Option<Device>, inputAdded: bool, outputAdded: bool, failures: seq<ScanError>)
    ensures device == if configured.Some? then configured else fallback
    ensures |failures| <= 1
    // the order of classification: construction, then input, then output
    ensures device.Some? && inputError.Some? ==> failures == [InitError(inputError.value)]
    ensures device.Some? && inputError.None? && !canAddInput ==> failures == [BadInput]
    ensures device.Some? && inputError.None? && canAddInput && !canAddOutput ==> failures == [BadOutput]
    // no camera at all, or a camera that attaches, reports nothing
    ensures failures == [] <==> device.None? || (inputError.None? && canAddInput && canAddOutput)
    ensures inputAdded <==> device.Some? && inputError.None? && canAddInput
    ensures outputAdded <==> device.Some? && failures == []
  {
    failures := [];
    inputAdded := false;
    outputAdded := false;
    device := if configured.Some? then configured else fallback;
    if device.None? {
      return;
    }
    if inputError.Some? {
      failures := failures + [InitError(inputError.value)];
      return;
    }
    if canAddInput {
      inputAdded := true;
    } else {
      failures := failures + [BadInput];
      return;
    }
    if canAddOutput {
      outputAdded := true;
    } else {
      failures := failures + [BadOutput];
      return;
    }
  }

  /** Hands each reported failure to the coordinator's `didFail`. */
  function ReportFailures(s: SessionState, failures: seq<ScanError>): (r: RunOutcome)
    ensures r.state == s
    ensures |r.outputs| == |failures|
    ensures forall i :: 0 <= i < |failures| ==> r.outputs[i] == Some(Failure(failures[i]))
    decreases |failures|
  {
    if |failures| == 0 then RunOutcome(s, [])
    else
      var before := ReportFailures(s, failures[..|failures| - 1]);
      var o := DidFail(before.state, failures[|failures| - 1]);
      RunOutcome(o.state, before.outputs + [o.delivery])
  }

  /** Setting up the camera hands the caller at most one failure, and
      leaves the coordinator's state as it was. */
  method LoadAndReport(s: SessionState, configured: Option<Device>, fallback: Option<Device>,
                       inputError: Option<UnderlyingError>, canAddInput: bool, canAddOutput: bool)
    returns (r: RunOutcome)
    ensures r.state == s
    ensures |r.outputs| <= 1
    ensures forall i :: 0 <= i < |r.outputs| ==> r.outputs[i].Some? && r.outputs[i].value.Failure?
    // the failure that reaches the caller, classified in order
    ensures (configured.Some? || fallback.Some?) && inputError.Some? ==>
              r.outputs == [Some(Failure(InitError(inputError.value)))]
    ensures (configured.Some? || fallback.Some?) && inputError.None? && !canAddInput ==>
              r.outputs == [Some(Failure(BadInput))]
    ensures (configured.Some? || fallback.Some?) && inputError.None? && canAddInput && !canAddOutput ==>
              r.outputs == [Some(Failure(BadOutput))]
    // nothing reaches the caller without a camera or when the camera attaches
    ensures r.outputs == [] <==> (configured.None? && fallback.None?) || (inputError.None? && canAddInput && canAddOutput)
  {
    var device, inputAdded, outputAdded, failures := ViewDidLoad(configured, fallback, inputError, canAddInput, canAddOutput);
    r := ReportFailures(s, failures);
  }

  /** What `viewWillAppear()` leads to through `setupSubviews()`: the
      coordinator's new state and the requests made, in order. */
  datatype AppearOutcome = AppearOutcome(coordinator: SessionState, requests: seq<Request>)

  /** `viewWillAppear()`: reset the coordinator, then ask the session to
      start if it is not running. */
  function ViewWillAppear(s: SessionState, isRunning: bool): (a: AppearOutcome)
    ensures a.coordinator == Initial
    ensures |a.requests| > 0 && a.requests[0] == ResetCoordinator
    // one reset, and at most one start
    ensures |a.requests| == if isRunning then 1 else 2
    ensures StartRunning in a.requests <==> !isRunning
    ensures StopRunning !in a.requests
    ensures forall i :: 0 <= i < |a.requests| && a.requests[i] == StartRunning ==> i > 0 && a.requests[i - 1] == ResetCoordinator
  {
    AppearOutcome(Reset(s), [ResetCoordinator] + if isRunning then [] else [StartRunning])
  }

  /** `viewDidDisappear()`: ask the session to stop if it is running.
      The coordinator is not touched. */
  function ViewDidDisappear(isRunning: bool): (requests: seq<Request>)
    ensures StopRunning in requests <==> isRunning
    ensures |requests| <= 1
    ensures ResetCoordinator !in requests && StartRunning !in requests
  {
    if isRunning then [StopRunning] else []
  }

  /** What reaches the controller and its coordinator, one at a time. */
  datatype LifecycleEvent =
    | Appear(isRunning: bool)
    | Disappear(isRunning: bool)
    | SampleArrived(now: int, sampleBuffer: CoordinatorMacOS.SampleBuffer)

  /** The coordinator's state after a sequence of events, every request
      the controller made, and what each event delivered. */
  datatype DriveOutcome = DriveOutcome(state: SessionState, requests: seq<Request>, outputs: seq<Option<Delivery>>)

  /** The controller and its coordinator driven by a sequence of events. */
  function Drive(s: SessionState, parent: CodeScannerView, events: seq<LifecycleEvent>): (r: DriveOutcome)
    ensures |r.outputs| == |events|
    ensures forall i :: 0 <= i < |events| && !events[i].SampleArrived? ==> r.outputs[i].None?
    // a start is only ever requested right after a reset
    ensures forall i :: 0 <= i < |r.requests| && r.requests[i] == StartRunning ==>
              i > 0 && r.requests[i - 1] == ResetCoordinator
    decreases |events|
  {
    if |events| == 0 then DriveOutcome(s, [], [])
    else
      var before := Drive(s, parent, events[..|events| - 1]);
      match events[|events| - 1]
      case Appear(isRunning) =>
        var a := ViewWillAppear(before.state, isRunning);
        DriveOutcome(a.coordinator, before.requests + a.requests, before.outputs + [None])
      case Disappear(isRunning) =>
        DriveOutcome(before.state, before.requests + ViewDidDisappear(isRunning), before.outputs + [None])
      case SampleArrived(now, sampleBuffer) =>
        var o := CoordinatorMacOS.CaptureOutput(before.state, parent, now, sampleBuffer);
        DriveOutcome(o.state, before.requests, before.outputs + [o.delivery])
  }

  /** Appearing starts a fresh session: whatever happened before, the
      events after any appearance leave the coordinator as they would
      leave a new one, and deliver what they would deliver to it. */
  lemma {:induction false} AppearStartsFreshSession(s: SessionState, parent: CodeScannerView, before: seq<LifecycleEvent>,
                                                    isRunning: bool, after: seq<LifecycleEvent>)
    ensures Drive(s, parent, before + [Appear(isRunning)] + after).state == Drive(Initial, parent, after).state
    ensures Drive(s, parent, before + [Appear(isRunning)] + after).outputs[|before| + 1..] == Drive(Initial, parent, after).outputs
    decreases |after|
  {
    var prefix := before + [Appear(isRunning)];
    var k := |before| + 1;
    if |after| == 0 {
      assert prefix + after == prefix;
      assert prefix[..|prefix| - 1] == before;
    } else {
      var events := prefix + after;
      var shorter := after[..|after| - 1];
      AppearStartsFreshSession(s, parent, before, isRunning, shorter);
      assert events[..|events| - 1] == prefix + shorter;
      assert events[|events| - 1] == after[|after| - 1];
      var whole, wholeBefore := Drive(s, parent, events), Drive(s, parent, prefix + shorter);
      var renewed, newBefore := Drive(Initial, parent, after), Drive(Initial, parent, shorter);
      // the last event meets the same state on both sides, so it delivers the same
      assert whole.outputs[|events| - 1] == renewed.outputs[|after| - 1];
      assert whole.outputs[..|events| - 1] == wholeBefore.outputs;
      assert renewed.outputs[..|after| - 1] == newBefore.outputs;
      assert whole.outputs[k..] == wholeBefore.outputs[k..] + [whole.outputs[|events| - 1]];
    }
  }

  datatype TorchMode = Off | On | Auto

  /** A camera as the torch rule sees it. */
  datatype Camera = Camera(hasTorch: bool, torchMode: TorchMode)

  /** `updateViewController(isTorchOn:isGalleryPresented:)`. The rule
      applies to the system's default camera, `backCamera`, whichever
      camera the session uses; the gallery flag is not used on macOS. */
  function UpdateViewController(isTorchOn: bool, isGalleryPresented: bool, backCamera: Option<Camera>): (r: Option<Camera>)
    ensures r.None? <==> backCamera.None?
    ensures backCamera.Some? && !backCamera.value.hasTorch ==> r == backCamera
    ensures backCamera.Some? && backCamera.value.hasTorch ==>
              r.value.hasTorch && (r.value.torchMode == On <==> isTorchOn) && r.value.torchMode != Auto
  {
    match backCamera
    case None => None
    case Some(camera) =>
      if camera.hasTorch then Some(camera.(torchMode := if isTorchOn then On else Off))
      else backCamera
  }

  /** Updating the torch twice with the same flag is updating it once. */
  lemma TorchUpdateIsIdempotent(isTorchOn: bool, isGalleryPresented: bool, backCamera: Option<Camera>)
    ensures var once := UpdateViewController(isTorchOn, isGalleryPresented, backCamera);
            UpdateViewController(isTorchOn, isGalleryPresented, once) == once
  {
  }
}

=== FILE: scanner_types.dfy ===
/** The public value types of the scanner component and the configuration
    its views are built from: scan errors, scan results, the three scan
    modes, and `CodeScannerConfig` with the default value of every
    initializer argument. */
module CodeScanner {
  import opened Wrappers

  /** Times are whole milliseconds since 1970-01-01 00:00:00 UTC, the
      origin of `Date(timeIntervalSince1970:)`. */
  const TicksPerSecond: int := 1000

  /** An error raised by the platform and passed through unchanged; the
      component never inspects it. */
  datatype UnderlyingError = UnderlyingError(domain: string, code: int)

  /** Why setting up the camera failed. */
  datatype ScanError =
    | BadInput                          // the session refused the camera as an input
    | BadOutput                         // the session refused the frame output the scanner reads from
    | InitError(cause: UnderlyingError) // device input construction threw `cause`

  /** `AVMetadataObject.ObjectType`, a type wrapping a raw string. */
  datatype CodeType = CodeType(rawValue: string)

  /** The QR code type, the only type the macOS detector reports. */
  const Qr: CodeType := CodeType("org.iso.QRCode")

  /** A successful scan: the decoded text paired with the symbology it
      was read as, and nothing else. */
  datatype ScanResult = ScanResult(contents: string, codeType: CodeType)

  /** How many results a scanner delivers. */
  datatype ScanMode =
    | Once        // a single delivery, then the session latches
    | OncePerCode // a delivery for every distinct code, repeats dropped
    | Continuous  // deliveries for as long as the view lives, spaced by the scan interval

  /** A camera, known only by identity. */
  datatype Device = Device(uniqueID: string)

  datatype Platform = IOS | MacOS

  /** `CodeScannerConfig`, without the completion handler: what the
      handler receives is the output of the coordinator functions.
      `scanInterval` is in ticks; `isGalleryPresented` is the current
      value of the binding. */
  datatype Config = Config(
    codeTypes: seq<CodeType>,
    scanMode: ScanMode,
    scanInterval: int,
    preferPerformanceOverAccuracy: bool,
    showViewfinder: bool,
    simulatedData: string,
    shouldVibrateOniOSAndFlashOnMacOSOnSuccess: bool,
    isTorchOn: bool,
    isGalleryPresented: bool,
    videoCaptureDevice: Option<Device>)

  /** The defaulted arguments of an initializer call: `None` means the
      caller left the argument out. `videoCaptureDevice` is itself
      optional, so a caller may pass an explicit `nil` as `Some(None)`. */
  datatype ConfigArgs = ConfigArgs(
    scanMode: Option<ScanMode>,
    scanInterval: Option<int>,
    preferPerformanceOverAccuracy: Option<bool>,
    showViewfinder: Option<bool>,
    simulatedData: Option<string>,
    shouldVibrateOniOSAndFlashOnMacOSOnSuccess: Option<bool>,
    isTorchOn: Option<bool>,
    isGalleryPresented: Option<bool>,
    videoCaptureDevice: Option<Option<Device>>)

  /** A call that leaves out every defaulted argument. */
  const NoArgs: ConfigArgs := ConfigArgs(None, None, None, None, None, None, None, None, None)

  const DefaultScanMode: ScanMode := Once
  const DefaultScanInterval: int := 2 * TicksPerSecond
  const DefaultPreferPerformanceOverAccuracy: bool := false
  const DefaultShowViewfinder: bool := false
  const DefaultSimulatedData: string := ""
  const DefaultShouldVibrate: bool := true
  const DefaultIsTorchOn: bool := false
  const DefaultIsGalleryPresented: bool := false

  /** `CodeScannerConfig.init`. `systemDefault` stands for
      `AVCaptureDevice.default(for: .video)`, evaluated when the
      device argument is left out. */
  function MakeConfig(codeTypes: seq<CodeType>, args: ConfigArgs, systemDefault: Option<Device>): (c: Config)
    ensures c.codeTypes == codeTypes
    ensures args.scanMode.Some? ==> c.scanMode == args.scanMode.value
    ensures args.scanMode.None? ==> c.scanMode == Once
    ensures args.scanInterval.Some? ==> c.scanInterval == args.scanInterval.value
    ensures args.scanInterval.None? ==> c.scanInterval == 2 * TicksPerSecond
    ensures args.preferPerformanceOverAccuracy.Some? ==> c.preferPerformanceOverAccuracy == args.preferPerformanceOverAccuracy.value
    ensures args.preferPerformanceOverAccuracy.None? ==> !c.preferPerformanceOverAccuracy
    ensures args.showViewfinder.Some? ==> c.showViewfinder == args.showViewfinder.value
    ensures args.showViewfinder.None? ==> !c.showViewfinder
    ensures args.simulatedData.Some? ==> c.simulatedData == args.simulatedData.value
    ensures args.simulatedData.None? ==> c.simulatedData == ""
    ensures args.shouldVibrateOniOSAndFlashOnMacOSOnSuccess.Some? ==>
              c.shouldVibrateOniOSAndFlashOnMacOSOnSuccess == args.shouldVibrateOniOSAndFlashOnMacOSOnSuccess.value
    ensures args.shouldVibrateOniOSAndFlashOnMacOSOnSuccess.None? ==> c.shouldVibrateOniOSAndFlashOnMacOSOnSuccess
    ensures args.isTorchOn.Some? ==> c.isTorchOn == args.isTorchOn.value
    ensures args.isTorchOn.None? ==> !c.isTorchOn
    ensures args.isGalleryPresented.Some? ==> c.isGalleryPresented == args.isGalleryPresented.value
    ensures args.isGalleryPresented.None? ==> !c.isGalleryPresented
    ensures args.videoCaptureDevice.Some? ==> c.videoCaptureDevice == args.videoCaptureDevice.value
    ensures args.videoCaptureDevice.None? ==> c.videoCaptureDevice == systemDefault
  {
    Config(
      codeTypes,
      args.scanMode.GetOr(DefaultScanMode),
      args.scanInterval.GetOr(DefaultScanInterval),
      args.preferPerformanceOverAccuracy.GetOr(DefaultPreferPerformanceOverAccuracy),
      args.showViewfinder.GetOr(DefaultShowViewfinder),
      args.simulatedData.GetOr(DefaultSimulatedData),
      args.shouldVibrateOniOSAndFlashOnMacOSOnSuccess.GetOr(DefaultShouldVibrate),
      args.isTorchOn.GetOr(DefaultIsTorchOn),
      args.isGalleryPresented.GetOr(DefaultIsGalleryPresented),
      args.videoCaptureDevice.GetOr(systemDefault))
  }

  /** The arguments that spell out every field of `c`. */
  function ExplicitArgs(c: Config): ConfigArgs {
    ConfigArgs(
      Some(c.scanMode), Some(c.scanInterval), Some(c.preferPerformanceOverAccuracy),
      Some(c.showViewfinder), Some(c.simulatedData), Some(c.shouldVibrateOniOSAndFlashOnMacOSOnSuccess),
      Some(c.isTorchOn), Some(c.isGalleryPresented), Some(c.videoCaptureDevice))
  }

  /** The initializer stores every argument it is given unchanged: built
      from the arguments that spell out a configuration, it gives back
      that configuration, whatever the system's default camera is. */
  lemma InitStoresArgumentsUnchanged(c: Config, systemDefault: Option<Device>)
    ensures MakeConfig(c.codeTypes, ExplicitArgs(c), systemDefault) == c
  {
  }

  /** The configuration a call with no optional arguments produces. */
  lemma ConfigDefaults(codeTypes: seq<CodeType>, systemDefault: Option<Device>)
    ensures MakeConfig(codeTypes, NoArgs, systemDefault)
         == Config(codeTypes, Once, 2 * TicksPerSecond, false, false, "", true, false, false, systemDefault)
  {
  }

  /** `CodeScannerView`: a view holding its configuration. The members
      are the protocol's accessors, read straight from `config`. */
  datatype CodeScannerView = CodeScannerView(config: Config) {
    function codeTypes(): seq<CodeType> { config.codeTypes }
    function scanMode(): ScanMode { config.scanMode }
    function scanInterval(): int { config.scanInterval }
    function preferPerformanceOverAccuracy(): bool { config.preferPerformanceOverAccuracy }
    function showViewfinder(): bool { config.showViewfinder }
    function simulatedData(): string { config.simulatedData }
    function shouldVibrateOniOSAndFlashOnMacOSOnSuccess(): bool { config.shouldVibrateOniOSAndFlashOnMacOSOnSuccess }
    function isTorchOn(): bool { config.isTorchOn }
    function isGalleryPresented(): bool { config.isGalleryPresented }
    function videoCaptureDevice(): Option<Device> { config.videoCaptureDevice }
  }

  /** The labelled `CodeScannerView.init(codeTypes:scanMode:...)` of each
      platform. Its defaults are the configuration's, except the scan
      mode, which defaults to `oncePerCode` on macOS. */
  function ViewInit(platform: Platform, codeTypes: seq<CodeType>, args: ConfigArgs, systemDefault: Option<Device>): (v: CodeScannerView)
    ensures args.scanMode.None? && platform == IOS ==> v.scanMode() == Once
    ensures args.scanMode.None? && platform == MacOS ==> v.scanMode() == OncePerCode
    ensures args.scanMode.Some? ==> v.scanMode() == args.scanMode.value
    ensures v.config == MakeConfig(codeTypes, args.(scanMode := Some(v.scanMode())), systemDefault)
  {
    var mode := args.scanMode.GetOr(if platform == IOS then Once else OncePerCode);
    CodeScannerView(MakeConfig(codeTypes, args.(scanMode := Some(mode)), systemDefault))
  }

  /** The protocol extension's `init(_ codeTypes:scanMode:...)`, without
      the `codeTypes:` label: it fills in its own defaults, `once` for
      the scan mode, and calls the labelled initializer with all of them. */
  function UnlabeledViewInit(platform: Platform, codeTypes: seq<CodeType>, args: ConfigArgs, systemDefault: Option<Device>): (v: CodeScannerView)
    // on both platforms, a left-out scan mode is `once`
    ensures args.scanMode.None? ==> v.scanMode() == Once
    ensures args.scanMode.Some? ==> v.scanMode() == args.scanMode.value
    // every other field gets the configuration's own default
    ensures v.config == MakeConfig(codeTypes, args.(scanMode := Some(v.scanMode())), systemDefault)
  {
    ViewInit(platform, codeTypes, args.(scanMode := Some(args.scanMode.GetOr(Once))), systemDefault)
  }

  /** Every accessor of a view reads back what its initializer was given,
      and the platforms differ only in the default scan mode. */
  lemma AccessorsReadThrough(platform: Platform, codeTypes: seq<CodeType>, args: ConfigArgs, systemDefault: Option<Device>)
    ensures var v := ViewInit(platform, codeTypes, args, systemDefault);
            && v.codeTypes() == codeTypes
            && v.scanMode() == args.scanMode.GetOr(if platform == IOS then Once else OncePerCode)
            && v.scanInterval() == args.scanInterval.GetOr(2 * TicksPerSecond)
            && v.preferPerformanceOverAccuracy() == args.preferPerformanceOverAccuracy.GetOr(false)
            && v.showViewfinder() == args.showViewfinder.GetOr(false)
            && v.simulatedData() == args.simulatedData.GetOr("")
            && v.shouldVibrateOniOSAndFlashOnMacOSOnSuccess() == args.shouldVibrateOniOSAndFlashOnMacOSOnSuccess.GetOr(true)
            && v.isTorchOn() == args.isTorchOn.GetOr(false)
            && v.isGalleryPresented() == args.isGalleryPresented.GetOr(false)
            && v.videoCaptureDevice() == args.videoCaptureDevice.GetOr(systemDefault)
  {
  }

  /** With every optional argument left out, the macOS view scans each
      code once while the unlabelled form of the same call scans once:
      the default scan mode depends on which initializer is called. */
  lemma MacOSDefaultModeDependsOnInitializer(codeTypes: seq<CodeType>, systemDefault: Option<Device>)
    ensures ViewInit(MacOS, codeTypes, NoArgs, systemDefault).scanMode() == OncePerCode
    ensures UnlabeledViewInit(MacOS, codeTypes, NoArgs, systemDefault).scanMode() == Once
  {
  }
}

=== FILE: session.dfy ===
/** The scan-session controller shared by both coordinators: the state a
    coordinator keeps between frames, the step that turns one frame's
    reading into at most one delivery, `reset` and `didFail`. */
module Session {
  import opened Wrappers
  import opened CodeScanner

  /** `Date(timeIntervalSince1970: 0)`, the time a fresh session last delivered. */
  const Epoch: int := 0

  /** The three mutable fields of a coordinator. */
  datatype SessionState = SessionState(codesFound: set<string>, didFinishScanning: bool, lastTime: int)

  /** The state a coordinator is created with. */
  const Initial: SessionState := SessionState({}, false, Epoch)

  /** What the completion handler receives. */
  type Delivery = Result<ScanResult, ScanError>

  /** The system sound a successful scan plays: vibration on iOS, a
      screen flash on macOS. */
  datatype SystemSound = Vibrate | FlashScreen

  /** The effect of one callback: the new state, the value handed to the
      completion handler if any, and the feedback sound played if any. */
  datatype StepOutcome = StepOutcome(state: SessionState, delivery: Option<Delivery>, feedback: Option<SystemSound>)

  /** A callback that returns without doing anything. */
  function Quiet(s: SessionState): StepOutcome {
    StepOutcome(s, None, None)
  }

  /** `reset()`: forget every code found, reopen the latch, and move the
      last delivery back to the epoch. */
  function Reset(s: SessionState): (r: SessionState)
    ensures r.codesFound == {} && !r.didFinishScanning && r.lastTime == Epoch
  {
    SessionState({}, false, Epoch)
  }

  /** `isPastScanInterval()`, with `now` standing for `Date()`: at least
      `scanInterval` has passed since the latest delivery. */
  function IsPastScanInterval(s: SessionState, parent: CodeScannerView, now: int): (past: bool)
    // with a non-negative interval, being past means the clock is not behind the latest delivery
    ensures past && parent.scanInterval() >= 0 ==> s.lastTime <= now
    // a non-positive interval is always past, unless the clock is behind the latest delivery
    ensures parent.scanInterval() <= 0 && s.lastTime <= now ==> past
    // right after a reset, the interval is measured from the epoch
    ensures s == Initial ==> (past <==> now >= Epoch + parent.scanInterval())
  {
    now - s.lastTime >= parent.scanInterval()
  }

  /** `found(_:)`: record the delivery time, play the feedback sound if
      the configuration asks for it, and hand the result over. */
  function Found(s: SessionState, parent: CodeScannerView, now: int, result: ScanResult, sound: SystemSound): (o: StepOutcome)
    ensures o.delivery == Some(Success(result))
    // only the delivery time changes
    ensures o.state.lastTime == now
    ensures o.state.codesFound == s.codesFound && o.state.didFinishScanning == s.didFinishScanning
    ensures o.feedback.Some? <==> parent.shouldVibrateOniOSAndFlashOnMacOSOnSuccess()
    ensures o.feedback.Some? ==> o.feedback.value == sound
  {
    StepOutcome(
      s.(lastTime := now),
      Some(Success(result)),
      if parent.shouldVibrateOniOSAndFlashOnMacOSOnSuccess() then Some(sound) else None)
  }

  /** The mode policy both coordinators apply to the reading they
      extract from a frame: `read` is the first object's result, `None`
      when the frame had no object or the first one was unreadable. */
  function Step(s: SessionState, parent: CodeScannerView, now: int, read: Option<ScanResult>, sound: SystemSound): (o: StepOutcome)
    // a delivery is always a success built from the reading, stamped now
    ensures o.delivery.Some? ==> read.Some? && o.delivery.value == Success(read.value) && o.state.lastTime == now
    // no delivery, no change
    ensures o.delivery.None? ==> o == Quiet(s)
    // when a delivery happens, per mode
    ensures o.delivery.Some? <==>
              && read.Some?
              && !s.didFinishScanning
              && match parent.scanMode()
                 case Once => true
                 case OncePerCode => read.value.contents !in s.codesFound
                 case Continuous => now - s.lastTime >= parent.scanInterval()
    // the latch is only ever set by a delivery in `once` mode
    ensures o.state.didFinishScanning <==> s.didFinishScanning || (o.delivery.Some? && parent.scanMode() == Once)
    // the found codes grow only by a delivery in `oncePerCode` mode
    ensures o.state.codesFound
         == if o.delivery.Some? && parent.scanMode() == OncePerCode then s.codesFound + {read.value.contents} else s.codesFound
    ensures o.feedback.Some? <==> o.delivery.Some? && parent.shouldVibrateOniOSAndFlashOnMacOSOnSuccess()
    ensures o.feedback.Some? ==> o.feedback.value == sound
  {
    match read
    case None => Quiet(s)
    case Some(result) =>
      if s.didFinishScanning then Quiet(s)
      else
        match parent.scanMode()
        case Once =>
          var o := Found(s, parent, now, result, sound);
          o.(state := o.state.(didFinishScanning := true))
        case OncePerCode =>
          if result.contents in s.codesFound then Quiet(s)
          else Found(s.(codesFound := s.codesFound + {result.contents}), parent, now, result, sound)
        case Continuous =>
          if IsPastScanInterval(s, parent, now) then Found(s, parent, now, result, sound)
          else Quiet(s)
  }

  /** `didFail(reason:)`: hand the failure to the completion handler and
      change nothing else. */
  function DidFail(s: SessionState, reason: ScanError): (o: StepOutcome)
    ensures o.state == s
    ensures o.delivery == Some(Failure(reason))
    ensures o.feedback.None?
  {
    StepOutcome(s, Some(Failure(reason)), None)
  }

  /** One callback at time `now` whose frame read `read`. */
  datatype Frame = Frame(now: int, read: Option<ScanResult>)

  /** The state after a sequence of callbacks, and what each one delivered. */
  datatype RunOutcome = RunOutcome(state: SessionState, outputs: seq<Option<Delivery>>)

  /** Callbacks delivered one after another, as the platform's serial
      delegate queue does. */
  function Run(s: SessionState, parent: CodeScannerView, frames: seq<Frame>, sound: SystemSound): (r: RunOutcome)
    ensures |r.outputs| == |frames|
    // each callback delivers nothing or the success its own frame read
    ensures forall i :: 0 <= i < |frames| ==>
              r.outputs[i].None? || (frames[i].read.Some? && r.outputs[i] == Some(Success(frames[i].read.value)))
    ensures s.codesFound <= r.state.codesFound
    decreases |frames|
  {
    if |frames| == 0 then RunOutcome(s, [])
    else
      var before := Run(s, parent, frames[..|frames| - 1], sound);
      var last := frames[|frames| - 1];
      var o := Step(before.state, parent, last.now, last.read, sound);
      RunOutcome(o.state, before.outputs + [o.delivery])
  }
}

=== FILE: session_runs.dfy ===
/** What the shared step promises over a whole sequence of callbacks:
    the `once` latch, `oncePerCode` de-duplication, `continuous`
    throttling, the clock order of `lastTime`, and what `reset` and
    `didFail` do to a session. */
module SessionRuns {
  import opened Wrappers
  import opened CodeScanner
  import opened Session

  /** No frame of `frames` was readable. */
  predicate NoneReadable(frames: seq<Frame>) {
    forall j :: 0 <= j < |frames| ==> frames[j].read.None?
  }

  /** The contents of every readable frame of `frames`. */
  function Payloads(frames: seq<Frame>): set<string>
    decreases |frames|
  {
    if |frames| == 0 then {}
    else
      var last := frames[|frames| - 1];
      Payloads(frames[..|frames| - 1]) + (if last.read.Some? then {last.read.value.contents} else {})
  }

  /** The contents of every success among `outputs`. */
  function DeliveredCodes(outputs: seq<Option<Delivery>>): set<string>
    decreases |outputs|
  {
    if |outputs| == 0 then {}
    else
      var last := outputs[|outputs| - 1];
      DeliveredCodes(outputs[..|outputs| - 1])
        + (if last.Some? && last.value.Success? then {last.value.value.contents} else {})
  }

  /** The index of the latest callback before `i` that delivered something. */
  function LatestDelivery(outputs: seq<Option<Delivery>>, i: nat): (k: Option<nat>)
    requires i <= |outputs|
    ensures k.Some? ==> k.value < i && outputs[k.value].Some?
    ensures k.Some? ==> forall m :: k.value < m < i ==> outputs[m].None?
    ensures k.None? ==> forall m :: 0 <= m < i ==> outputs[m].None?
    decreases i
  {
    if i == 0 then None
    else if outputs[i - 1].Some? then Some(i - 1)
    else LatestDelivery(outputs, i - 1)
  }

  /** When the latest delivery before callback `i` happened, as a caller
      watching the completion handler would see it: `start` if nothing
      was delivered yet. */
  function LastStamp(start: int, frames: seq<Frame>, outputs: seq<Option<Delivery>>, i: nat): int
    requires |outputs| == |frames| && i <= |frames|
  {
    match LatestDelivery(outputs, i)
    case None => start
    case Some(k) => frames[k].now
  }

  /** The clock never runs backwards across `frames`. */
  predicate ClockMonotone(frames: seq<Frame>) {
    forall a, b :: 0 <= a <= b < |frames| ==> frames[a].now <= frames[b].now
  }

  // ---------------------------------------------------------------------
  // Prefixes

  lemma LastStampPrefix(start: int, frames: seq<Frame>, outputs: seq<Option<Delivery>>, n: nat, i: nat)
    requires |outputs| == |frames| && i <= n <= |frames|
    ensures LastStamp(start, frames[..n], outputs[..n], i) == LastStamp(start, frames, outputs, i)
  {
  }

  /** The first `i` callbacks of a run deliver what the shorter run of
      just those callbacks delivers. */
  lemma {:induction false} RunPrefix(s: SessionState, parent: CodeScannerView, frames: seq<Frame>, sound: SystemSound, i: nat)
    requires i <= |frames|
    ensures Run(s, parent, frames[..i], sound).outputs == Run(s, parent, frames, sound).outputs[..i]
    decreases |frames|
  {
    if i < |frames| {
      var pre := frames[..|frames| - 1];
      assert pre[..i] == frames[..i];
      RunPrefix(s, parent, pre, sound, i);
      assert Run(s, parent, frames, sound).outputs[..|frames| - 1] == Run(s, parent, pre, sound).outputs;
    } else {
      assert frames[..i] == frames;
    }
  }

  // ---------------------------------------------------------------------
  // The latch

  /** Once the latch is set, no callback delivers anything or changes
      the state. */
  lemma {:induction false} LatchedRunIsQuiet(s: SessionState, parent: CodeScannerView, frames: seq<Frame>, sound: SystemSound)
    requires s.didFinishScanning
    ensures Run(s, parent, frames, sound).state == s
    ensures forall i :: 0 <= i < |frames| ==> Run(s, parent, frames, sound).outputs[i].None?
    decreases |frames|
  {
    if |frames| > 0 {
      LatchedRunIsQuiet(s, parent, frames[..|frames| - 1], sound);
    }
  }

  /** In `once` mode, starting unlatched, a callback delivers exactly
      when it is the first readable one, and the session ends latched
      exactly when some frame was readable. */
  lemma {:induction false} OnceDeliversFirstReadingOnly(s: SessionState, parent: CodeScannerView, frames: seq<Frame>, sound: SystemSound)
    requires parent.scanMode() == Once && !s.didFinishScanning
    ensures var r := Run(s, parent, frames, sound);
            forall i :: 0 <= i < |frames| ==>
              (r.outputs[i].Some? <==> frames[i].read.Some? && NoneReadable(frames[..i]))
    ensures Run(s, parent, frames, sound).state.didFinishScanning <==> !NoneReadable(frames)
    decreases |frames|
  {
    if |frames| > 0 {
      var pre := frames[..|frames| - 1];
      OnceDeliversFirstReadingOnly(s, parent, pre, sound);
      forall i | 0 <= i < |pre| ensures pre[..i] == frames[..i] { }
      assert NoneReadable(frames) <==> NoneReadable(pre) && frames[|frames| - 1].read.None? by {
        if NoneReadable(pre) && frames[|frames| - 1].read.None? {
          forall j | 0 <= j < |frames| ensures frames[j].read.None? {
            if j < |pre| { assert frames[j] == pre[j]; }
          }
        }
      }
    }
  }

  /** In `once` mode a session delivers at most one result between resets. */
  lemma OnceDeliversAtMostOne(s: SessionState, parent: CodeScannerView, frames: seq<Frame>, sound: SystemSound, i: nat, j: nat)
    requires parent.scanMode() == Once && !s.didFinishScanning
    requires i < j < |frames|
    ensures Run(s, parent, frames, sound).outputs[i].None? || Run(s, parent, frames, sound).outputs[j].None?
  {
    OnceDeliversFirstReadingOnly(s, parent, frames, sound);
    if Run(s, parent, frames, sound).outputs[i].Some? {
      assert frames[..j][i] == frames[i];
    }
  }

  // ---------------------------------------------------------------------
  // oncePerCode

  lemma PayloadsContains(frames: seq<Frame>, k: nat)
    requires k < |frames| && frames[k].read.Some?
    ensures frames[k].read.value.contents in Payloads(frames)
  {
  }

  /** In `oncePerCode` mode the found codes after a run are the codes
      found before it plus every code the run read, and the latch stays
      open. */
  lemma {:induction false} OncePerCodeFindsEveryCodeRead(s: SessionState, parent: CodeScannerView, frames: seq<Frame>, sound: SystemSound)
    requires parent.scanMode() == OncePerCode && !s.didFinishScanning
    ensures Run(s, parent, frames, sound).state.codesFound == s.codesFound + Payloads(frames)
    ensures !Run(s, parent, frames, sound).state.didFinishScanning
    decreases |frames|
  {
    if |frames| > 0 {
      OncePerCodeFindsEveryCodeRead(s, parent, frames[..|frames| - 1], sound);
    }
  }

  /** In `oncePerCode` mode a callback delivers exactly when its frame
      reads a code not found before, neither before the run nor earlier
      in it. */
  lemma OncePerCodeDeliversNewCodesOnly(s: SessionState, parent: CodeScannerView, frames: seq<Frame>, sound: SystemSound)
    requires parent.scanMode() == OncePerCode && !s.didFinishScanning
    ensures var r := Run(s, parent, frames, sound);
            forall i :: 0 <= i < |frames| ==>
              (r.outputs[i].Some? <==>
                 frames[i].read.Some? && frames[i].read.value.contents !in s.codesFound + Payloads(frames[..i]))
  {
    var r := Run(s, parent, frames, sound);
    forall i | 0 <= i < |frames|
      ensures r.outputs[i].Some? <==>
                frames[i].read.Some? && frames[i].read.value.contents !in s.codesFound + Payloads(frames[..i])
    {
      RunPrefix(s, parent, frames, sound, i + 1);
      OncePerCodeFindsEveryCodeRead(s, parent, frames[..i], sound);
      assert frames[..i + 1][..i] == frames[..i];
    }
  }

  /** In `oncePerCode` mode the codes a run delivers are exactly the
      codes it read that were not found before it. */
  lemma {:induction false} OncePerCodeDeliversEveryNewCode(s: SessionState, parent: CodeScannerView, frames: seq<Frame>, sound: SystemSound)
    requires parent.scanMode() == OncePerCode && !s.didFinishScanning
    ensures DeliveredCodes(Run(s, parent, frames, sound).outputs) == Payloads(frames) - s.codesFound
    decreases |frames|
  {
    if |frames| > 0 {
      var pre := frames[..|frames| - 1];
      OncePerCodeDeliversEveryNewCode(s, parent, pre, sound);
      OncePerCodeFindsEveryCodeRead(s, parent, pre, sound);
      var r := Run(s, parent, frames, sound);
      assert r.outputs[..|frames| - 1] == Run(s, parent, pre, sound).outputs;
    }
  }

  /** In `oncePerCode` mode no code is delivered twice between resets. */
  lemma OncePerCodeNeverRepeats(s: SessionState, parent: CodeScannerView, frames: seq<Frame>, sound: SystemSound, i: nat, j: nat)
    requires parent.scanMode() == OncePerCode && !s.didFinishScanning
    requires i < j < |frames|
    requires Run(s, parent, frames, sound).outputs[i].Some? && Run(s, parent, frames, sound).outputs[j].Some?
    ensures Run(s, parent, frames, sound).outputs[i] != Run(s, parent, frames, sound).outputs[j]
  {
    OncePerCodeDeliversNewCodesOnly(s, parent, frames, sound);
    assert frames[..j][i] == frames[i];
    PayloadsContains(frames[..j], i);
  }

  // ---------------------------------------------------------------------
  // The delivery clock

  /** In every mode, `lastTime` is the time of the latest delivery, or
      its starting value when nothing was delivered. */
  lemma {:induction false} LastTimeIsLatestDelivery(s: SessionState, parent: CodeScannerView, frames: seq<Frame>, sound: SystemSound)
    ensures var r := Run(s, parent, frames, sound);
            r.state.lastTime == LastStamp(s.lastTime, frames, r.outputs, |frames|)
    decreases |frames|
  {
    if |frames| > 0 {
      var n := |frames|;
      var pre := frames[..n - 1];
      LastTimeIsLatestDelivery(s, parent, pre, sound);
      var r := Run(s, parent, frames, sound);
      assert r.outputs[..n - 1] == Run(s, parent, pre, sound).outputs;
      LastStampPrefix(s.lastTime, frames, r.outputs, n - 1, n - 1);
    }
  }

  /** In `continuous` mode a callback delivers exactly when its frame is
      readable and at least `scanInterval` has passed since the latest
      delivery (not since the session started); no code is remembered. */
  lemma {:induction false} ContinuousThrottlesSinceLastDelivery(s: SessionState, parent: CodeScannerView, frames: seq<Frame>, sound: SystemSound)
    requires parent.scanMode() == Continuous && !s.didFinishScanning
    ensures var r := Run(s, parent, frames, sound);
            forall i :: 0 <= i < |frames| ==>
              (r.outputs[i].Some? <==>
                 frames[i].read.Some? && frames[i].now - LastStamp(s.lastTime, frames, r.outputs, i) >= parent.scanInterval())
    ensures Run(s, parent, frames, sound).state.codesFound == s.codesFound
    ensures !Run(s, parent, frames, sound).state.didFinishScanning
    decreases |frames|
  {
    if |frames| > 0 {
      var n := |frames|;
      var pre := frames[..n - 1];
      ContinuousThrottlesSinceLastDelivery(s, parent, pre, sound);
      LastTimeIsLatestDelivery(s, parent, pre, sound);
      var r := Run(s, parent, frames, sound);
      assert r.outputs[..n - 1] == Run(s, parent, pre, sound).outputs;
      forall i | 0 <= i < n
        ensures LastStamp(s.lastTime, pre, Run(s, parent, pre, sound).outputs, if i < n - 1 then i else n - 1)
             == LastStamp(s.lastTime, frames, r.outputs, i)
      {
        LastStampPrefix(s.lastTime, frames, r.outputs, n - 1, if i < n - 1 then i else n - 1);
      }
    }
  }

  /** In `continuous` mode with a non-negative interval, any two
      deliveries are at least `scanInterval` apart. */
  lemma {:induction false} ContinuousDeliveriesAreSpaced(s: SessionState, parent: CodeScannerView, frames: seq<Frame>, sound: SystemSound, i: nat, j: nat)
    requires parent.scanMode() == Continuous && !s.didFinishScanning && parent.scanInterval() >= 0
    requires i < j < |frames|
    requires Run(s, parent, frames, sound).outputs[i].Some? && Run(s, parent, frames, sound).outputs[j].Some?
    ensures frames[j].now - frames[i].now >= parent.scanInterval()
    decreases j
  {
    var r := Run(s, parent, frames, sound);
    ContinuousThrottlesSinceLastDelivery(s, parent, frames, sound);
    var k := LatestDelivery(r.outputs, j);
    assert k.Some? && k.value >= i;
    assert frames[j].now - frames[k.value].now >= parent.scanInterval();
    if k.value > i {
      ContinuousDeliveriesAreSpaced(s, parent, frames, sound, i, k.value);
    }
  }

  /** With a clock that never runs backwards and starts no earlier than
      the last delivery, `lastTime` after a callback is never later than
      the time of any callback still to come. */
  lemma {:induction false} LastTimeTrailsClock(s: SessionState, parent: CodeScannerView, frames: seq<Frame>, sound: SystemSound, j: nat)
    requires j <= |frames| && ClockMonotone(frames)
    requires forall m :: 0 <= m < |frames| ==> s.lastTime <= frames[m].now
    ensures forall m :: j <= m < |frames| ==> Run(s, parent, frames[..j], sound).state.lastTime <= frames[m].now
    decreases j
  {
    if j > 0 {
      LastTimeTrailsClock(s, parent, frames, sound, j - 1);
      assert frames[..j][..j - 1] == frames[..j - 1];
    }
  }

  /** With a clock that never runs backwards, `lastTime` never decreases
      from one callback to a later one. */
  lemma {:induction false} LastTimeNeverGoesBack(s: SessionState, parent: CodeScannerView, frames: seq<Frame>, sound: SystemSound, i: nat, j: nat)
    requires i <= j <= |frames| && ClockMonotone(frames)
    requires forall m :: 0 <= m < |frames| ==> s.lastTime <= frames[m].now
    ensures Run(s, parent, frames[..i], sound).state.lastTime <= Run(s, parent, frames[..j], sound).state.lastTime
    decreases j
  {
    if i < j {
      LastTimeNeverGoesBack(s, parent, frames, sound, i, j - 1);
      LastTimeTrailsClock(s, parent, frames, sound, j - 1);
      assert frames[..j][..j - 1] == frames[..j - 1];
    }
  }

  // ---------------------------------------------------------------------
  // reset and didFail

  /** `reset` restores the state a coordinator is created with, whatever
      happened before, and doing it twice is doing it once. */
  lemma ResetRestoresInitial(s: SessionState)
    ensures Reset(s) == Initial
    ensures Reset(Reset(s)) == Reset(s)
  {
  }

  /** After `reset`, every reading is deliverable again: in `once` and
      `oncePerCode` mode always, even a code delivered before the reset;
      in `continuous` mode when `scanInterval` has passed since the epoch. */
  lemma ResetReopensSession(s: SessionState, parent: CodeScannerView, now: int, result: ScanResult, sound: SystemSound)
    ensures var o := Step(Reset(s), parent, now, Some(result), sound);
            o.delivery.Some? <==> parent.scanMode() != Continuous || now - Epoch >= parent.scanInterval()
  {
  }

  /** `didFail` leaves the session exactly as it was: every later
      sequence of callbacks delivers what it would have delivered
      without the failure, so a failure does not latch the session. */
  lemma DidFailDoesNotLatch(s: SessionState, reason: ScanError, parent: CodeScannerView, frames: seq<Frame>, sound: SystemSound)
    ensures Run(DidFail(s, reason).state, parent, frames, sound) == Run(s, parent, frames, sound)
  {
  }

  // ---------------------------------------------------------------------
  // Worked scenarios

  /** `once` mode: the first of two different codes is delivered, the
      second is not. */
  lemma OnceScenario(parent: CodeScannerView, sound: SystemSound)
    requires parent.scanMode() == Once
    ensures var frames := [Frame(5000, Some(ScanResult("XYZ123", Qr))), Frame(6000, Some(ScanResult("OTHER", Qr)))];
            Run(Initial, parent, frames, sound).outputs == [Some(Success(ScanResult("XYZ123", Qr))), None]
  {
    var frames := [Frame(5000, Some(ScanResult("XYZ123", Qr))), Frame(6000, Some(ScanResult("OTHER", Qr)))];
    OnceDeliversFirstReadingOnly(Initial, parent, frames, sound);
    var r := Run(Initial, parent, frames, sound);
    assert frames[..1][0] == frames[0];
  }

  /** `oncePerCode` mode: A, A, B, A delivers A then B. */
  lemma OncePerCodeScenario(parent: CodeScannerView, sound: SystemSound)
    requires parent.scanMode() == OncePerCode
    ensures var a, b := Some(ScanResult("A", Qr)), Some(ScanResult("B", Qr));
            var frames := [Frame(1, a), Frame(2, a), Frame(3, b), Frame(4, a)];
            Run(Initial, parent, frames, sound).outputs == [Some(Success(a.value)), None, Some(Success(b.value)), None]
  {
    var a, b := Some(ScanResult("A", Qr)), Some(ScanResult("B", Qr));
    var frames := [Frame(1, a), Frame(2, a), Frame(3, b), Frame(4, a)];
    OncePerCodeDeliversNewCodesOnly(Initial, parent, frames, sound);
    assert Payloads(frames[..1]) == {"A"} by { assert frames[..1][..0] == []; }
    assert Payloads(frames[..2]) == {"A"} by { assert frames[..2][..1] == frames[..1]; }
    assert Payloads(frames[..3]) == {"A", "B"} by { assert frames[..3][..2] == frames[..2]; }
  }

  /** `continuous` mode with a two-second interval, starting from a
      reset: callbacks at t, t+0.5, t+1.9, t+2.0 and t+2.1 seconds after
      a real clock reading t deliver at t and t+2.0. */
  lemma ContinuousScenario(parent: CodeScannerView, sound: SystemSound)
    requires parent.scanMode() == Continuous && parent.scanInterval() == 2 * TicksPerSecond
    ensures var t, c := 1_700_000_000_000, Some(ScanResult("C", Qr));
            var frames := [Frame(t, c), Frame(t + 500, c), Frame(t + 1900, c), Frame(t + 2000, c), Frame(t + 2100, c)];
            Run(Initial, parent, frames, sound).outputs == [Some(Success(c.value)), None, None, Some(Success(c.value)), None]
  {
    var t, c := 1_700_000_000_000, Some(ScanResult("C", Qr));
    var frames := [Frame(t, c), Frame(t + 500, c), Frame(t + 1900, c), Frame(t + 2000, c), Frame(t + 2100, c)];
    ContinuousThrottlesSinceLastDelivery(Initial, parent, frames, sound);
    var r := Run(Initial, parent, frames, sound);
    assert r.outputs[0].Some?;
    assert LatestDelivery(r.outputs, 1) == Some(0);
    assert r.outputs[1].None?;
    assert LatestDelivery(r.outputs, 2) == Some(0);
    assert r.outputs[2].None?;
    assert LatestDelivery(r.outputs, 3) == Some(0);
    assert r.outputs[3].Some?;
    assert LatestDelivery(r.outputs, 4) == Some(3);
    assert r.outputs[4].None?;
  }
}

=== FILE: wrappers.dfy ===
/** Option and Result, the two wrappers the scanner's values travel in:
    Swift optionals become `Option`, and the completion handler's
    `Result<ScanResult, ScanError>` becomes `Result`. */
module Wrappers {

  datatype Option<+T> = None | Some(value: T) {

    /** The wrapped value, or `default` when there is none (Swift's `??`). */
    function GetOr(default: T): T {
      match this
      case Some(v) => v
      case None => default
    }
  }

  datatype Result<+R, +E> = Success(value: R) | Failure(error: E)
}
